=== FILE: README.md ===
# Brad Pitt chat relay — a Dafny model of the request handler

The repository serves a chat widget whose messages go to one serverless HTTP handler,
`api/chat.js`. The handler answers CORS preflight requests, refuses every method but
POST, validates the `message` field of the JSON body (present, not blank, at most 500
UTF-16 code units), sends the trimmed message to the OpenAI chat-completion API under a
fixed persona instruction, and maps the outcome to a response: the trimmed reply with a
timestamp on success, or one of four fixed apology texts chosen by a first-match
classifier over the upstream error's `code` and `message`.

The model is functional and has two halves, as the handler does:

- `ChatHandler.Gate` maps a `Request` (method and optional message) to a `Decision`:
  answer at once, or forward a `Completion` request.
- `ChatHandler.Complete` maps the completion client's `Outcome` (the reply content, or
  a thrown error's `code` and `message`) to a `Response`.
- `ChatHandler.Handle` runs the two. The completion client is a function parameter that
  the model treats as an opaque oracle, and the wall-clock timestamp is a string
  parameter. The resulting `Exchange` records the response and the completion request
  the handler sent, if it sent one. So "never calls upstream" is a statement about
  `sent`.

Files:

- `wrappers.dfy` holds `Option`.
- `js_string.dfy` models the three JavaScript string built-ins the handler depends on:
  - `trim` strips the ECMAScript WhiteSpace and LineTerminator code points.
  - `length` counts UTF-16 code units, so a supplementary-plane character counts two.
  - `includes` is substring occurrence.
- `chat_model.dfy` holds the request, completion, outcome and response datatypes and the
  handler's constants.
- `chat_handler.dfy` holds the handler.
- `chat_properties.dfy` holds the lemmas about edge cases and about how several calls
  relate.

Behaviour of `api/chat.js` worth noting:

- The length cap counts UTF-16 code units of the untrimmed message, not characters.
- A non-empty reply made only of whitespace gets status 200 with an empty reply, because
  `!reply` is false for it.
- OPTIONS is answered with 200, not 405.
- The handler never reads `userId` or `userName`, so no personalised persona sentence
  is modelled.
- The handler has no bearer-token check, so there is no 401 path.
- The method comparison is case-sensitive: `"post"` gets 405.

## Model

| member | source | states |
|---|---|---|
| JsString.SkipLeading | api/chat.js:63 | the index it returns is the first non-whitespace position at or after the start, and every character skipped is whitespace |
| JsString.SkipTrailing | api/chat.js:63 | the index it returns is just past the last non-whitespace character, and every character dropped is whitespace |
| JsString.Trim | api/chat.js:63 | `trim` removes whitespace from both ends only: the result is a slice of the input, everything cut away is whitespace, and neither end of the result is whitespace |
| JsString.TrimmedAtUnique | api/chat.js:82 | there is only one such trimmed form of a string, so the trimmed text is fully determined by that description |
| JsString.TrimCharacterized | api/chat.js:82 | any string meeting the description of the trimmed input is exactly what `Trim` returns |
| JsString.TrimIdempotent | api/chat.js:98 | trimming twice is trimming once, and the result has no whitespace at either end |
| JsString.TrimFixedPoint | api/chat.js:98 | `trim` leaves a string unchanged exactly when neither of its ends is whitespace |
| JsString.TrimEmptyIff | api/chat.js:63 | `message.trim() === ''` holds exactly when every character of the message is whitespace |
| JsString.TrimPadded | api/chat.js:82 | whitespace added on either side of an already-trimmed text is exactly what `trim` removes |
| JsString.Length | api/chat.js:68 | `length` lies between the number of characters and twice that number |
| JsString.LengthAppend | api/chat.js:68 | the UTF-16 length of a concatenation is the sum of the lengths |
| JsString.LengthAllSupplementary | api/chat.js:68 | a string whose characters are all at or above U+10000 has a UTF-16 length twice its character count |
| JsString.LengthAllBmp | api/chat.js:68 | a string whose characters are all below U+10000 has a UTF-16 length equal to its character count |
| JsString.LengthSlice | api/chat.js:68 | a slice is never longer in code units than the whole string |
| JsString.IndexOf | api/chat.js:106 | the index found is an occurrence of the substring, and no earlier index at or after the start is one; when nothing is found, no occurrence exists from the start on |
| JsString.Includes | api/chat.js:106 | `includes` is true exactly when the substring occurs somewhere |
| JsString.NoOccurrenceWithoutChar | api/chat.js:114 | a string lacking one of the substring's characters contains no occurrence of it |
| ChatHandler.Gate | api/chat.js:50-84 | OPTIONS is answered with an empty 200. Every other non-POST method gets 405 "Method not allowed". A POST with a missing or all-whitespace message gets 400 "Message is required". A POST with a non-blank message over 500 code units gets 400 "Message too long…". Otherwise the request is forwarded with the trimmed message. Each case is stated in both directions |
| ChatHandler.Classify | api/chat.js:106-118 | the class returned is one whose rule matches, and no rule earlier in the order quota, API key, rate_limit, fallback matches |
| ChatHandler.FailureResponse | api/chat.js:102-118 | each rule gets its own answer, in first-match order. A quota match gets 429 with the "busy" text. Otherwise an API-key match gets 500 with the "technical issue" text. Otherwise a rate_limit match gets 429 with the "slow down" text. Anything else gets 500 with the "try rephrasing" text |
| ChatHandler.Complete | api/chat.js:91-118 | status 200 exactly when the reply is present and non-empty, and then the body is the trimmed reply with the given timestamp. A thrown error is answered by classifying its own `code` and `message`. A missing or empty reply is answered as the error "No response generated" with no code |
| ChatHandler.Handle | api/chat.js:44-120 | the completion API is called exactly when the method is POST and the message is acceptable, and then with the trimmed message. A request that is not forwarded gets exactly the answer `Gate` decides. The response to a forwarded request is the mapped outcome of that call. Every status is one of 200, 400, 405, 429 or 500. Every error body is one of the seven fixed texts. The body is empty exactly for OPTIONS |
| ChatProperties.OptionsIsPreflight | api/chat.js:51-53 | an OPTIONS request gets an empty 200 whatever its body, with no upstream call |
| ChatProperties.OtherMethodsRefusedBeforeBody | api/chat.js:56-57 | a method other than POST or OPTIONS gets 405 with no upstream call, and the same answer whatever the message |
| ChatProperties.BlankMessageRefused | api/chat.js:63-64 | a missing, empty or all-whitespace message gets 400 "Message is required" whatever its length, with no upstream call |
| ChatProperties.LengthCapInclusive | api/chat.js:68-69 | a non-blank message of exactly 500 code units is forwarded, and one of 501 is refused with 400 and no upstream call |
| ChatProperties.TrimmedMessageForwarded | api/chat.js:73-84 | a non-blank trimmed message within the cap is sent upstream unchanged |
| ChatProperties.PaddedMessageRefused | api/chat.js:68-69 | a message whose total length with its padding exceeds 500 is refused although its first character is not whitespace |
| ChatProperties.PaddingCanExceedCap | api/chat.js:68-82 | because the cap counts the untrimmed message, whitespace padding alone turns a forwarded message into a 400 refusal although the trimmed text is the same |
| ChatProperties.BmpLengthCap | api/chat.js:68-69 | for text below U+10000 the cap is 500 characters: a non-blank message of 500 such characters is forwarded, and one of 501 is refused with 400 and no upstream call |
| ChatProperties.SupplementaryCharactersCountTwice | api/chat.js:68-69 | a message of more than 250 characters at or above U+10000 (emoji, for instance) is refused as too long, each counting two code units |
| ChatProperties.AcceptedTextShape | api/chat.js:82 | the trimmed text of an accepted message is non-empty, has no whitespace at either end and is within the cap |
| ChatProperties.ForwardedRequestShape | api/chat.js:73-89 | the completion request names model gpt-4 with a 500-token limit. It has exactly two entries: the persona instruction as system, then the trimmed message as user. That message is non-empty, trimmed and within the cap |
| ChatProperties.TrimmedReplyUnchanged | api/chat.js:97-100 | a reply with no whitespace at either end is returned unchanged with status 200 and the given timestamp |
| ChatProperties.WhitespaceReplyIsEmptySuccess | api/chat.js:93-98 | a non-empty all-whitespace reply yields 200 with an empty reply string |
| ChatProperties.NoResponseHasNoKeyword | api/chat.js:94 | the text "No response generated" contains none of "quota", "API key" and "rate_limit" |
| ChatProperties.NoKeywordIsUnclassified | api/chat.js:118 | an error with neither special code and none of the keywords takes the fallback class |
| ChatProperties.NoResponseIsUnclassified | api/chat.js:94 | the error thrown for an empty reply takes the fallback class |
| ChatProperties.EmptyReplyIsGenericFailure | api/chat.js:91-95 | a missing or empty reply is answered with 500 and the "try rephrasing" text |
| ChatProperties.TooManyRequestsIff | api/chat.js:106-116 | a failure gets 429 exactly when the quota rule matches, or the rate-limit rule matches and the API-key rule does not |
| ChatProperties.EarliestRuleWins | api/chat.js:106-118 | when several rules match, the class chosen is never later than any of them |
| ChatProperties.FailureAnswerDependsOnClassOnly | api/chat.js:102-118 | two failures of the same class get identical responses, so the upstream error text never reaches the caller |
| ChatProperties.QuotaErrorAnswer | api/chat.js:106-107 | an `insufficient_quota` error gets 429 with the fixed "busy" text whatever its message |
| ChatProperties.QuotaRuleBeforeKeyRule | api/chat.js:106-111 | an `invalid_api_key` error whose message mentions "quota" is classified as a quota error |
| ChatProperties.KeyRuleBeforeRateLimitRule | api/chat.js:110-115 | an error without the `insufficient_quota` code whose message mentions both "API key" and "rate_limit" (and not "quota") gets 500 with the "technical issue" text |

## Left out

- CORS headers (api/chat.js:46-48) and the `console.error` log line (api/chat.js:103) are side effects with no bearing on the response. They are not modelled.
- The OpenAI client (api/chat.js:2-6, 73-89) is a network call. Its result is the input `Outcome`. The floating-point sampling parameters (temperature 0.8, both penalties 0.3) are not modelled. Model name and token limit are.
- The persona instruction (api/chat.js:9-42) is a placeholder constant. Its text is not reproduced, and no property depends on it.
- The ISO-8601 timestamp (api/chat.js:99) reads the wall clock. It is the opaque `now` parameter.
- JavaScript runtime failures are not modelled:
  - a missing request body, which makes the destructuring throw;
  - a non-string `message` or reply;
  - an error object without a `message` string, which makes the catch block itself throw unless its `code` is `insufficient_quota`, which is answered 429 before the message is read.
  `message` is modelled as `Option<string>`, and a thrown error's message as a string.
- Lone UTF-16 surrogates cannot be written as Dafny characters. A JSON body could carry one, and it would count one code unit toward the cap.
- The chat widget (js/chat-widget.js) is DOM and network plumbing. It is not modelled.
- The repository's authenticated handler variant is a separate handler and is not modelled. Its 401 path and its personalised persona sentence are not modelled either.

=== FILE: chat_handler.dfy ===
/** The stateless request handler of api/chat.js, in two halves: `Gate` decides from the
    request alone whether to answer at once or to call the completion API, and `Complete`
    turns the completion API's outcome into a response. `Handle` runs one after the other. */
module ChatHandler {
  import opened Wrappers
  import opened JsString
  import opened ChatModel

  /** What the handler decides before any upstream call. */
  datatype Decision = Answer(response: Response) | Forward(completion: Completion)

  /** A message the handler accepts: present, not blank, and at most
      `MaxMessageLength` code units long counting any surrounding whitespace. */
  predicate Acceptable(message: Option<string>) {
    && message.Some?
    && !AllWhitespace(message.value)
    && Length(message.value) <= MaxMessageLength
  }

  /** The completion request for a validated message: the persona instruction, then the
      user's text. */
  function CompletionFor(text: string): Completion {
    Completion(ModelName, [Entry(System, PersonaPrompt), Entry(User, text)], MaxTokens)
  }

  /** The pre-call half of the handler: method gate, then message validation. */
  function Gate(req: Request): (d: Decision)
    ensures d == Answer(Response(200, NoBody)) <==> req.httpMethod == "OPTIONS"
    ensures (d == Answer(Response(405, ErrorBody(MethodNotAllowed))))
      <==> (req.httpMethod != "OPTIONS" && req.httpMethod != "POST")
    ensures (d == Answer(Response(400, ErrorBody(MessageRequired))))
      <==> (req.httpMethod == "POST" && (req.message.None? || AllWhitespace(req.message.value)))
    ensures (d == Answer(Response(400, ErrorBody(MessageTooLong))))
      <==> (&& req.httpMethod == "POST" && req.message.Some?
            && !AllWhitespace(req.message.value)
            && Length(req.message.value) > MaxMessageLength)
    ensures d.Forward? <==> req.httpMethod == "POST" && Acceptable(req.message)
    ensures d.Forward? ==> d.completion == CompletionFor(Trim(req.message.value))
  {
    if req.httpMethod == "OPTIONS" then
      Answer(Response(200, NoBody))
    else if req.httpMethod != "POST" then
      Answer(Response(405, ErrorBody(MethodNotAllowed)))
    else
      match req.message
      case None => Answer(Response(400, ErrorBody(MessageRequired)))
      case Some(m) =>
        TrimEmptyIff(m);
        if m == [] || Trim(m) == [] then
          Answer(Response(400, ErrorBody(MessageRequired)))
        else if Length(m) > MaxMessageLength then
          Answer(Response(400, ErrorBody(MessageTooLong)))
        else
          Forward(CompletionFor(Trim(m)))
  }

  /** The classes of upstream failure the catch block tells apart, in the order it tries them. */
  datatype FailureKind = QuotaExhausted | BadCredentials | RateLimited | Unclassified {

    /** Position of this class's rule in the classifier. */
    function Rank(): nat {
      match this
      case QuotaExhausted => 0
      case BadCredentials => 1
      case RateLimited => 2
      case Unclassified => 3
    }

    function Status(): nat {
      match this
      case QuotaExhausted => 429
      case BadCredentials => 500
      case RateLimited => 429
      case Unclassified => 500
    }

    function ErrorText(): string {
      match this
      case QuotaExhausted => BusyRetry
      case BadCredentials => TechnicalIssue
      case RateLimited => SlowDown
      case Unclassified => Rephrase
    }
  }

  /** The condition of each classifier rule, stated with occurrence rather than with the
      `Includes` the handler evaluates. */
  ghost predicate RuleMatches(kind: FailureKind, code: Option<string>, message: string) {
    match kind
    case QuotaExhausted =>
      code == Some("insufficient_quota") || exists i :: OccursAt(message, "quota", i)
    case BadCredentials =>
      code == Some("invalid_api_key") || exists i :: OccursAt(message, "API key", i)
    case RateLimited =>
      exists i :: OccursAt(message, "rate_limit", i)
    case Unclassified =>
      true
  }

  /** The catch block's classifier: the first rule whose condition holds. */
  function Classify(code: Option<string>, message: string): (k: FailureKind)
    ensures RuleMatches(k, code, message)
    ensures forall other: FailureKind :: other.Rank() < k.Rank() ==> !RuleMatches(other, code, message)
  {
    if code == Some("insufficient_quota") || Includes(message, "quota") then QuotaExhausted
    else if code == Some("invalid_api_key") || Includes(message, "API key") then BadCredentials
    else if Includes(message, "rate_limit") then RateLimited
    else Unclassified
  }

  /** The response to a caught error: a fixed status and text for its class. */
  function FailureResponse(code: Option<string>, message: string): (r: Response)
    ensures r.status in {429, 500}
    ensures r.body.ErrorBody? && r.body.error in UpstreamErrorTexts
    ensures r.status == 429 <==> r.body.error in {BusyRetry, SlowDown}
    ensures RuleMatches(QuotaExhausted, code, message) ==> r == Response(429, ErrorBody(BusyRetry))
    ensures && !RuleMatches(QuotaExhausted, code, message)
            && RuleMatches(BadCredentials, code, message)
            ==> r == Response(500, ErrorBody(TechnicalIssue))
    ensures && !RuleMatches(QuotaExhausted, code, message)
            && !RuleMatches(BadCredentials, code, message)
            && RuleMatches(RateLimited, code, message)
            ==> r == Response(429, ErrorBody(SlowDown))
    ensures && !RuleMatches(QuotaExhausted, code, message)
            && !RuleMatches(BadCredentials, code, message)
            && !RuleMatches(RateLimited, code, message)
            ==> r == Response(500, ErrorBody(Rephrase))
  {
    var k := Classify(code, message);
    Response(k.Status(), ErrorBody(k.ErrorText()))
  }

  /** The post-call half of the handler. `now` is the wall-clock instant, already
      formatted as ISO-8601. */
  function Complete(outcome: Outcome, now: string): (r: Response)
    ensures r.status == 200 <==> outcome.Replied? && outcome.content.Some? && outcome.content.value != []
    ensures r.status == 200 ==> r.body == ReplyBody(Trim(outcome.content.value), now)
    ensures r.status != 200 ==> r.status in {429, 500} && r.body.ErrorBody? && r.body.error in UpstreamErrorTexts
    ensures outcome.Threw? ==> r == FailureResponse(outcome.code, outcome.message)
    ensures outcome.Replied? && r.status != 200 ==> r == FailureResponse(None, NoResponseGenerated)
  {
    match outcome
    case Replied(content) =>
      if content.None? || content.value == [] then
        FailureResponse(None, NoResponseGenerated)
      else
        Response(200, ReplyBody(Trim(content.value), now))
    case Threw(code, message) =>
      FailureResponse(code, message)
  }

  /** One invocation of the handler. The completion client is the opaque `upstream`;
      the exchange records whether and with what it was called. */
  function Handle(req: Request, upstream: Completion -> Outcome, now: string): (x: Exchange)
    ensures x.sent.Some? <==> req.httpMethod == "POST" && Acceptable(req.message)
    ensures x.sent.Some? ==> x.sent.value == CompletionFor(Trim(req.message.value))
    ensures x.sent.Some? ==> x.response == Complete(upstream(x.sent.value), now)
    ensures x.response.status in {200, 400, 405, 429, 500}
    ensures x.response.body.ErrorBody? ==> x.response.body.error in ErrorTexts
    ensures x.sent.None? ==> Gate(req) == Answer(x.response)
    ensures x.response.body.NoBody? <==> req.httpMethod == "OPTIONS"
  {
    match Gate(req)
    case Answer(response) => Exchange(response, None)
    case Forward(completion) => Exchange(Complete(upstream(completion), now), Some(completion))
  }
}

=== FILE: chat_model.dfy ===
/** The values the chat relay handler of api/chat.js consumes and produces. Each value
    lives for one request; nothing is kept between requests. */
module ChatModel {
  import opened Wrappers

  /** An incoming HTTP request as far as the handler looks at it: the HTTP method, and the
      body's `message` field (`None` when it is absent or null). */
  datatype Request = Request(httpMethod: string, message: Option<string>)

  datatype Role = System | User

  datatype Entry = Entry(role: Role, content: string)

  /** The chat-completion request sent upstream. The floating-point sampling
      parameters (temperature and the two penalties) are not modelled. */
  datatype Completion = Completion(model: string, messages: seq<Entry>, maxTokens: nat)

  /** What the completion client produced: either the content of the first choice's
      message (`None` when missing or null), or a thrown error with its `code`
      (`None` when absent) and its `message`. */
  datatype Outcome =
    | Replied(content: Option<string>)
    | Threw(code: Option<string>, message: string)

  /** A JSON response body. `NoBody` is the empty preflight answer; `timestamp` is the
      ISO-8601 instant the handler reads from the wall clock. */
  datatype Body =
    | NoBody
    | ErrorBody(error: string)
    | ReplyBody(reply: string, timestamp: string)

  datatype Response = Response(status: nat, body: Body)

  /** Everything one invocation of the handler does that can be observed: the response
      it sends, and the completion request it sent upstream, if any. */
  datatype Exchange = Exchange(response: Response, sent: Option<Completion>)

  /** Longest accepted message, in UTF-16 code units. */
  const MaxMessageLength: nat := 500

  const ModelName: string := "gpt-4"

  const MaxTokens: nat := 500

  /** The fixed persona instruction sent as the system entry. Its multi-paragraph text is
      not reproduced: no property of the handler depends on what it says. */
  const PersonaPrompt: string := "<fixed Brad Pitt persona instruction>"

  /** The message of the error the handler throws itself when the reply is empty. */
  const NoResponseGenerated: string := "No response generated"

  // The user-facing error texts, one per rejection or failure class.
  const MethodNotAllowed: string := "Method not allowed"
  const MessageRequired: string := "Message is required"
  const MessageTooLong: string := "Message too long. Please keep it under 500 characters."
  const BusyRetry: string := "Sorry, I'm getting a lot of messages right now. Please try again in a moment!"
  const TechnicalIssue: string := "Sorry, there's a technical issue on my end. Please try again later!"
  const SlowDown: string := "Whoa, slow down there! Give me a second to catch up."
  const Rephrase: string := "Sorry, I had trouble understanding that. Could you try rephrasing?"

  /** The texts an upstream failure can be answered with. */
  const UpstreamErrorTexts: set<string> := {BusyRetry, TechnicalIssue, SlowDown, Rephrase}

  /** Every error text the handler can send. */
  const ErrorTexts: set<string> :=
    {MethodNotAllowed, MessageRequired, MessageTooLong} + UpstreamErrorTexts
}

=== FILE: chat_properties.dfy ===
/** Properties of the relay handler that relate several calls or pin down its edge cases. */
module ChatProperties {
  import opened Wrappers
  import opened JsString
  import opened ChatModel
  import opened ChatHandler

  const NoCall: Option<Completion> := None

  /** A preflight request is answered with an empty 200 whatever its body, and the
      completion API is not called. */
  lemma OptionsIsPreflight(message: Option<string>, upstream: Completion -> Outcome, now: string)
    ensures Handle(Request("OPTIONS", message), upstream, now) == Exchange(Response(200, NoBody), NoCall)
  {
  }

  /** Any method other than POST and OPTIONS is refused with 405 before the body is looked
      at: two requests that differ only in their message get the same answer. */
  lemma OtherMethodsRefusedBeforeBody(httpMethod: string, a: Option<string>, b: Option<string>,
                                      upstream: Completion -> Outcome, now: string)
    requires httpMethod != "POST" && httpMethod != "OPTIONS"
    ensures Handle(Request(httpMethod, a), upstream, now) == Handle(Request(httpMethod, b), upstream, now)
    ensures Handle(Request(httpMethod, a), upstream, now)
         == Exchange(Response(405, ErrorBody(MethodNotAllowed)), NoCall)
  {
  }

  /** A missing, empty or all-whitespace message is refused with 400 "Message is required",
      whatever its length, without calling the completion API. */
  lemma BlankMessageRefused(message: Option<string>, upstream: Completion -> Outcome, now: string)
    requires message.None? || AllWhitespace(message.value)
    ensures Handle(Request("POST", message), upstream, now)
         == Exchange(Response(400, ErrorBody(MessageRequired)), NoCall)
  {
  }

  /** The length cap is inclusive: a non-blank message of exactly 500 code units is sent
      upstream, one of 501 is refused. */
  lemma LengthCapInclusive(m: string, upstream: Completion -> Outcome, now: string)
    requires !AllWhitespace(m)
    ensures Length(m) == MaxMessageLength ==> Handle(Request("POST", Some(m)), upstream, now).sent.Some?
    ensures Length(m) == MaxMessageLength + 1 ==>
              Handle(Request("POST", Some(m)), upstream, now)
              == Exchange(Response(400, ErrorBody(MessageTooLong)), NoCall)
  {
  }

  /** A non-blank trimmed message within the cap is sent upstream as it is. */
  lemma TrimmedMessageForwarded(core: string, upstream: Completion -> Outcome, now: string)
    requires core != [] && IsTrimmed(core) && Length(core) <= MaxMessageLength
    ensures Handle(Request("POST", Some(core)), upstream, now).sent == Some(CompletionFor(core))
  {
    TrimFixedPoint(core);
  }

  /** A message whose padding takes it past the cap is refused. */
  lemma PaddedMessageRefused(core: string, pad: string, upstream: Completion -> Outcome, now: string)
    requires core != [] && !IsWhitespace(core[0]) && Length(core) + Length(pad) > MaxMessageLength
    ensures Handle(Request("POST", Some(core + pad)), upstream, now)
         == Exchange(Response(400, ErrorBody(MessageTooLong)), NoCall)
  {
    var padded := core + pad;
    LengthAppend(core, pad);
    assert padded[0] == core[0];
  }

  /** The cap counts the message before trimming, so whitespace padding alone can push an
      accepted message over it although the text sent upstream would be the same. */
  lemma PaddingCanExceedCap(core: string, pad: string, upstream: Completion -> Outcome, now: string)
    requires core != [] && IsTrimmed(core) && Length(core) <= MaxMessageLength
    requires AllWhitespace(pad) && Length(core) + Length(pad) > MaxMessageLength
    ensures Trim(core + pad) == core
    ensures Handle(Request("POST", Some(core)), upstream, now).sent == Some(CompletionFor(core))
    ensures Handle(Request("POST", Some(core + pad)), upstream, now)
         == Exchange(Response(400, ErrorBody(MessageTooLong)), NoCall)
  {
    TrimPadded([], core, pad);
    assert [] + core + pad == core + pad;
    TrimmedMessageForwarded(core, upstream, now);
    PaddedMessageRefused(core, pad, upstream, now);
  }

  /** For ordinary text the cap counts characters: a non-blank message of exactly 500
      characters below U+10000 is sent upstream, and one of 501 is refused. */
  lemma BmpLengthCap(m: string, upstream: Completion -> Outcome, now: string)
    requires forall i :: 0 <= i < |m| ==> m[i] as int < 0x1_0000
    requires !AllWhitespace(m)
    ensures |m| == MaxMessageLength ==> Handle(Request("POST", Some(m)), upstream, now).sent.Some?
    ensures |m| == MaxMessageLength + 1 ==>
              Handle(Request("POST", Some(m)), upstream, now)
              == Exchange(Response(400, ErrorBody(MessageTooLong)), NoCall)
  {
    LengthAllBmp(m);
    LengthCapInclusive(m, upstream, now);
  }

  /** The cap counts UTF-16 code units, not characters: a message of supplementary-plane
      characters (emoji, say) is refused once it has more than 250 of them. */
  lemma SupplementaryCharactersCountTwice(m: string, upstream: Completion -> Outcome, now: string)
    requires forall i :: 0 <= i < |m| ==> m[i] as int >= 0x1_0000
    requires MaxMessageLength / 2 < |m|
    ensures Handle(Request("POST", Some(m)), upstream, now)
         == Exchange(Response(400, ErrorBody(MessageTooLong)), NoCall)
  {
    LengthAllSupplementary(m);
    assert !IsWhitespace(m[0]) by {
      assert m[0] as int >= 0x1_0000;
    }
  }

  /** The text of an accepted message once trimmed: non-empty, no whitespace at either
      end, and within the cap. */
  lemma AcceptedTextShape(m: string)
    requires Acceptable(Some(m))
    ensures Trim(m) != [] && IsTrimmed(Trim(m)) && Length(Trim(m)) <= MaxMessageLength
  {
    TrimEmptyIff(m);
    TrimIdempotent(m);
    TrimLength(m);
  }

  /** What is sent upstream for an accepted message: exactly two entries, the persona
      instruction and then the trimmed message, which is non-empty, has no whitespace at
      either end and is within the cap. */
  lemma ForwardedRequestShape(req: Request, upstream: Completion -> Outcome, now: string)
    requires Handle(req, upstream, now).sent.Some?
    ensures var c := Handle(req, upstream, now).sent.value;
      && c.model == ModelName && c.maxTokens == MaxTokens
      && |c.messages| == 2
      && c.messages[0] == Entry(System, PersonaPrompt)
      && c.messages[1] == Entry(User, Trim(req.message.value))
      && c.messages[1].content != []
      && IsTrimmed(c.messages[1].content)
      && Length(c.messages[1].content) <= MaxMessageLength
  {
    AcceptedTextShape(req.message.value);
  }

  /** A reply with no whitespace at either end comes back as it is, with status 200 and
      the current instant. */
  lemma TrimmedReplyUnchanged(reply: string, now: string)
    requires reply != [] && IsTrimmed(reply)
    ensures Complete(Replied(Some(reply)), now) == Response(200, ReplyBody(reply, now))
  {
    TrimFixedPoint(reply);
  }

  /** A non-empty reply made only of whitespace is not an error: it is trimmed to the empty
      string and returned with 200. */
  lemma WhitespaceReplyIsEmptySuccess(reply: string, now: string)
    requires reply != [] && AllWhitespace(reply)
    ensures Complete(Replied(Some(reply)), now) == Response(200, ReplyBody([], now))
  {
    TrimEmptyIff(reply);
  }

  /** An error with no recognised code and none of the keywords gets the generic class. */
  lemma NoKeywordIsUnclassified(code: Option<string>, message: string)
    requires code != Some("insufficient_quota") && code != Some("invalid_api_key")
    requires !Includes(message, "quota") && !Includes(message, "API key") && !Includes(message, "rate_limit")
    ensures Classify(code, message) == Unclassified
  {
  }

  lemma NoResponseHasNoKeyword()
    ensures forall i :: !OccursAt(NoResponseGenerated, "quota", i)
    ensures forall i :: !OccursAt(NoResponseGenerated, "API key", i)
    ensures forall i :: !OccursAt(NoResponseGenerated, "rate_limit", i)
  {
    NoOccurrenceWithoutChar(NoResponseGenerated, "quota", 0);
    NoOccurrenceWithoutChar(NoResponseGenerated, "API key", 0);
    NoOccurrenceWithoutChar(NoResponseGenerated, "rate_limit", 4);
  }

  /** The error the handler throws for an empty reply falls through every keyword rule. */
  lemma NoResponseIsUnclassified()
    ensures Classify(None, NoResponseGenerated) == Unclassified
  {
    NoResponseHasNoKeyword();
  }

  /** A missing or empty reply is turned into the error "No response generated", which
      matches none of the classifier's keywords and so gets the generic 500. */
  lemma EmptyReplyIsGenericFailure(content: Option<string>, now: string)
    requires content.None? || content.value == []
    ensures Complete(Replied(content), now) == Response(500, ErrorBody(Rephrase))
  {
    NoResponseIsUnclassified();
  }

  /** Which failures are answered with 429: those the quota rule catches, and those the
      rate-limit rule catches that the credentials rule did not catch first. */
  lemma TooManyRequestsIff(code: Option<string>, message: string)
    ensures FailureResponse(code, message).status == 429
        <==> || RuleMatches(QuotaExhausted, code, message)
             || (!RuleMatches(BadCredentials, code, message) && RuleMatches(RateLimited, code, message))
  {
  }

  /** An error that matches several rules is classified by the earliest of them. */
  lemma EarliestRuleWins(code: Option<string>, message: string, kind: FailureKind)
    requires RuleMatches(kind, code, message)
    ensures Classify(code, message).Rank() <= kind.Rank()
  {
  }

  /** The answer to an upstream failure depends on its class alone, never on the rest of
      the upstream error text. */
  lemma FailureAnswerDependsOnClassOnly(code1: Option<string>, message1: string,
                                        code2: Option<string>, message2: string)
    requires Classify(code1, message1) == Classify(code2, message2)
    ensures FailureResponse(code1, message1) == FailureResponse(code2, message2)
  {
  }

  /** A quota error is answered with 429 and the fixed "busy" text, whatever the upstream
      error says. */
  lemma QuotaErrorAnswer(message: string, now: string)
    ensures Complete(Threw(Some("insufficient_quota"), message), now) == Response(429, ErrorBody(BusyRetry))
  {
  }

  /** An invalid-key error whose text also mentions the quota takes the earlier quota rule. */
  lemma QuotaRuleBeforeKeyRule(message: string)
    requires Includes(message, "quota")
    ensures Classify(Some("invalid_api_key"), message) == QuotaExhausted
  {
  }

  /** A credentials error whose text also mentions rate limiting is still a 500. */
  lemma KeyRuleBeforeRateLimitRule(code: Option<string>, message: string)
    requires code != Some("insufficient_quota")
    requires Includes(message, "API key") && Includes(message, "rate_limit") && !Includes(message, "quota")
    ensures FailureResponse(code, message) == Response(500, ErrorBody(TechnicalIssue))
  {
  }
}

=== FILE: js_string.dfy ===
/** Models of the three JavaScript string built-ins the relay handler relies on:
    `String.prototype.trim`, `String.prototype.length` and `String.prototype.includes`.
    A Dafny `char` is a Unicode scalar value; a JavaScript string is a sequence of
    UTF-16 code units, which matters only for `length`. */
module JsString {
  import opened Wrappers

  /** The code points `trim` strips: ECMAScript WhiteSpace (TAB, VT, FF, ZWNBSP and the
      Unicode space separators) and LineTerminator (LF, CR, LS, PS). */
  predicate IsWhitespace(c: char) {
    || c == '\t' || c == '\n' || c == '\U{000B}' || c == '\U{000C}' || c == '\r'
    || c == ' ' || c == '\U{00A0}' || c == '\U{1680}'
    || ('\U{2000}' <= c <= '\U{200A}')
    || c == '\U{2028}' || c == '\U{2029}' || c == '\U{202F}' || c == '\U{205F}'
    || c == '\U{3000}' || c == '\U{FEFF}'
  }

  predicate AllWhitespace(s: string) {
    forall i :: 0 <= i < |s| ==> IsWhitespace(s[i])
  }

  /** Neither end of `s` is whitespace: what `trim` leaves behind. */
  predicate IsTrimmed(s: string) {
    s == [] || (!IsWhitespace(s[0]) && !IsWhitespace(s[|s| - 1]))
  }

  /** `r` is `s` with its first `lead` characters and some trailing characters removed,
      every removed character is whitespace, and `r` has no whitespace at either end. */
  ghost predicate TrimmedAt(s: string, r: string, lead: int) {
    && 0 <= lead && lead + |r| <= |s|
    && r == s[lead..lead + |r|]
    && (forall k :: 0 <= k < lead ==> IsWhitespace(s[k]))
    && (forall k :: lead + |r| <= k < |s| ==> IsWhitespace(s[k]))
    && IsTrimmed(r)
  }

  /** Index of the first character at or after `i` that is not whitespace, or `|s|`. */
  function SkipLeading(s: string, i: nat): (k: nat)
    requires i <= |s|
    ensures i <= k <= |s|
    ensures forall j :: i <= j < k ==> IsWhitespace(s[j])
    ensures k < |s| ==> !IsWhitespace(s[k])
    decreases |s| - i
  {
    if i < |s| && IsWhitespace(s[i]) then SkipLeading(s, i + 1) else i
  }

  /** Index just past the last character before `j` that is not whitespace, looking no
      further back than `lo`; `lo` when there is none. */
  function SkipTrailing(s: string, lo: nat, j: nat): (k: nat)
    requires lo <= j <= |s|
    ensures lo <= k <= j
    ensures forall m :: k <= m < j ==> IsWhitespace(s[m])
    ensures lo < k ==> !IsWhitespace(s[k - 1])
    decreases j
  {
    if lo < j && IsWhitespace(s[j - 1]) then SkipTrailing(s, lo, j - 1) else j
  }

  /** `s.trim()`. */
  function Trim(s: string): (r: string)
    ensures exists lead :: TrimmedAt(s, r, lead)
  {
    var lead := SkipLeading(s, 0);
    var r := s[lead..SkipTrailing(s, lead, |s|)];
    assert TrimmedAt(s, r, lead);
    r
  }

  /** There is only one way to trim a string. */
  lemma TrimmedAtUnique(s: string, r1: string, lead1: int, r2: string, lead2: int)
    requires TrimmedAt(s, r1, lead1) && TrimmedAt(s, r2, lead2)
    ensures r1 == r2
  {
    if r1 != [] {
      assert r1[0] == s[lead1] && r1[|r1| - 1] == s[lead1 + |r1| - 1];
    }
    if r2 != [] {
      assert r2[0] == s[lead2] && r2[|r2| - 1] == s[lead2 + |r2| - 1];
    }
  }

  lemma TrimCharacterized(s: string, r: string, lead: int)
    requires TrimmedAt(s, r, lead)
    ensures Trim(s) == r
  {
    var lead' :| TrimmedAt(s, Trim(s), lead');
    TrimmedAtUnique(s, r, lead, Trim(s), lead');
  }

  /** Trimming twice is trimming once. */
  lemma TrimIdempotent(s: string)
    ensures Trim(Trim(s)) == Trim(s)
    ensures IsTrimmed(Trim(s))
  {
    var r := Trim(s);
    var lead :| TrimmedAt(s, r, lead);
    assert r[0..|r|] == r;
    TrimCharacterized(r, r, 0);
  }

  /** `trim` leaves a string unchanged exactly when neither of its ends is whitespace. */
  lemma TrimFixedPoint(s: string)
    ensures Trim(s) == s <==> IsTrimmed(s)
  {
    TrimIdempotent(s);
    if IsTrimmed(s) {
      assert s[0..|s|] == s;
      TrimCharacterized(s, s, 0);
    }
  }

  /** `s.trim() === ''` exactly when every character of `s` is whitespace. */
  lemma TrimEmptyIff(s: string)
    ensures Trim(s) == [] <==> AllWhitespace(s)
  {
    var lead :| TrimmedAt(s, Trim(s), lead);
    if AllWhitespace(s) {
      assert TrimmedAt(s, [], 0);
      TrimCharacterized(s, [], 0);
    }
  }

  /** Whitespace added around a trimmed string is exactly what `trim` takes away. */
  lemma TrimPadded(before: string, core: string, after: string)
    requires AllWhitespace(before) && AllWhitespace(after) && IsTrimmed(core)
    ensures Trim(before + core + after) == core
  {
    var s := before + core + after;
    assert s[..|before|] == before;
    assert s[|before|..|before| + |core|] == core;
    assert s[|before| + |core|..] == after;
    TrimCharacterized(s, core, |before|);
  }

  /** Number of UTF-16 code units that encode `c`: two for a supplementary-plane
      character (a surrogate pair), one otherwise. */
  function CodeUnits(c: char): nat {
    if c as int >= 0x1_0000 then 2 else 1
  }

  /** `s.length`: the number of UTF-16 code units of `s`. */
  function Length(s: string): (n: nat)
    ensures |s| <= n <= 2 * |s|
  {
    if s == [] then 0 else CodeUnits(s[0]) + Length(s[1..])
  }

  lemma {:induction false} LengthAppend(a: string, b: string)
    ensures Length(a + b) == Length(a) + Length(b)
  {
    if a == [] {
      assert a + b == b;
    } else {
      assert (a + b)[1..] == a[1..] + b;
      LengthAppend(a[1..], b);
    }
  }

  /** A string made only of supplementary-plane characters is twice as long in
      code units as in characters. */
  lemma {:induction false} LengthAllSupplementary(s: string)
    requires forall i :: 0 <= i < |s| ==> s[i] as int >= 0x1_0000
    ensures Length(s) == 2 * |s|
  {
    if s != [] {
      LengthAllSupplementary(s[1..]);
    }
  }

  lemma LengthPrefix(s: string, j: int)
    requires 0 <= j <= |s|
    ensures Length(s[..j]) <= Length(s)
  {
    assert s[..j] + s[j..] == s;
    LengthAppend(s[..j], s[j..]);
  }

  lemma LengthSuffix(s: string, i: int)
    requires 0 <= i <= |s|
    ensures Length(s[i..]) <= Length(s)
  {
    assert s[..i] + s[i..] == s;
    LengthAppend(s[..i], s[i..]);
  }

  /** A string of Basic Multilingual Plane characters (every character below U+10000,
      which covers all of ASCII) has as many code units as characters. */
  lemma {:induction false} LengthAllBmp(s: string)
    requires forall i :: 0 <= i < |s| ==> s[i] as int < 0x1_0000
    ensures Length(s) == |s|
  {
    if s != [] {
      LengthAllBmp(s[1..]);
    }
  }

  /** A slice is never longer than the whole. */
  lemma LengthSlice(s: string, i: int, j: int)
    requires 0 <= i <= j <= |s|
    ensures Length(s[i..j]) <= Length(s)
  {
    var t := s[..j];
    assert t[i..] == s[i..j];
    LengthSuffix(t, i);
    LengthPrefix(s, j);
  }

  /** Trimming never lengthens a string. */
  lemma TrimLength(s: string)
    ensures Length(Trim(s)) <= Length(s)
  {
    var lead :| TrimmedAt(s, Trim(s), lead);
    LengthSlice(s, lead, lead + |Trim(s)|);
  }

  /** `sub` occurs in `s` starting at index `i`. */
  ghost predicate OccursAt(s: string, sub: string, i: int) {
    0 <= i && i + |sub| <= |s| && s[i..i + |sub|] == sub
  }

  /** The first index at or after `from` where `sub` occurs; `s.indexOf(sub)` when
      `from` is 0, the only way the handler uses it. */
  function IndexOf(s: string, sub: string, from: nat): (r: Option<nat>)
    ensures r.Some? ==> from <= r.value && OccursAt(s, sub, r.value)
    ensures forall i :: from <= i && (r.None? || i < r.value) ==> !OccursAt(s, sub, i)
    decreases |s| - from
  {
    if from + |sub| > |s| then None
    else if s[from..from + |sub|] == sub then Some(from)
    else IndexOf(s, sub, from + 1)
  }

  /** A string that lacks some character of `sub` does not include `sub`. */
  lemma NoOccurrenceWithoutChar(s: string, sub: string, k: nat)
    requires k < |sub| && sub[k] !in s
    ensures forall i :: !OccursAt(s, sub, i)
  {
    forall i
      ensures !OccursAt(s, sub, i)
    {
      if 0 <= i && i + |sub| <= |s| {
        assert s[i..i + |sub|][k] == s[i + k];
      }
    }
  }

  /** `s.includes(sub)`. */
  function Includes(s: string, sub: string): (b: bool)
    ensures b <==> exists i :: OccursAt(s, sub, i)
  {
    IndexOf(s, sub, 0).Some?
  }
}

=== FILE: wrappers.dfy ===
/** The optional-value datatype shared by the model: `None` stands for a JavaScript
    value that is `undefined` or `null`. */
module Wrappers {

  datatype Option<+T> = None | Some(value: T)
}
